=== FILE: README.md ===
# Google Places client: request options and response interpretation

A Dafny model of the core of Skybrud.Social.Google.Places, a .NET client for
the Google Places web API. The model covers two layers.

- **Request options.** `PlacesGetDetailsOptions`, `PlacesNearbySearchOptions`
  and `PlacesTextSearchOptions` each validate their required properties and
  then build the query string of a GET request, one conditional parameter at a
  time. Each `GetRequest` is a pure function from an options record to
  `Result<HttpRequest, Error>`. A thrown `PropertyNotSetException` becomes
  `Failure(PropertyNotSet(name))`.
- **Response interpretation.** For a response whose body is a JSON object,
  `PlacesResponse` turns every HTTP status other than 200 into a `PlacesHttp`
  error. The typed responses parse their body only
  on 200. `PlacesDetails` and the search bodies fill in defaults for missing
  keys and derive the `Has*` flags.

Layout, one module per file:

- `Basics`: `Option`, `Result` and the `Error` datatype.
- `Strings`: `string.IsNullOrWhiteSpace`, plus invariant-culture integer
  rendering and `string.Join`. Each rendering has an inverse and a round-trip
  lemma.
- `QueryStrings`: the query string as `seq<(string, string)>`. Every builder
  is modelled as a walk over a list of candidate parameters; `Collect` keeps
  those whose condition held. There are general lemmas about first-match
  lookup and parameter order.
- `Models`: the enumerations and the nested value records.
- `GetDetails`, `NearbySearch` and `TextSearch`: the three options classes.
- `Details`, `ResponseBodies` and `Responses`: parsing and status dispatch.

Other modelling choices:

- Coordinates are `real`. The source tests a coordinate with
  `Math.Abs(x) < double.Epsilon`. `double.Epsilon` is the least positive
  double, so that test holds exactly for zero. The same reasoning makes
  `Rating < float.Epsilon` hold exactly for a rating that is not positive.
- The invariant-culture rendering of a double is a parameter,
  `formatCoord: real -> string`.
- `PlacesPriceLevel` (`src/Skybrud.Social.Google.Places/Models/PlacesPriceLevel.cs:7-32`)
  declares `Free` first, so as written `Free` = 0 and `Inexpensive` = 1. It
  has no `Unspecified` member, and neither has `PlacesBusinessStatus`
  (`src/Skybrud.Social.Google.Places/Models/PlacesBusinessStatus.cs:7-22`).
  The code still compares against `Unspecified`
  (`PlacesNearbySearchOptions.cs:159`, `PlacesDetails.cs:38` and `:113`) and
  produces it (`PlacesDetails.cs:185` and `:201`).
  The model therefore puts `Unspecified` at 0, which shifts every price level
  up by one: `Free` = 1 … `VeryExpensive` = 5 (`Models.Ord`). With that shift,
  the `(int) level - 1` a builder sends is the API's 0..4 scale.

## Model

| member | source | states |
|---|---|---|
| GetDetails.GetRequest | src/Skybrud.Social.Google.Places/Options/PlacesGetDetailsOptions.cs:57-72 | fails iff the place ID is blank, naming `PlaceId`; otherwise a request to the details endpoint whose query is exactly `placeid` followed by `language` iff the language is not blank |
| GetDetails.WithPlaceIdRequest | src/Skybrud.Social.Google.Places/Options/PlacesGetDetailsOptions.cs:48-50 | the one-argument constructor keeps the ID unchanged and sets no language: its request is refused iff the ID is blank, and otherwise holds only `placeid` |
| GetDetails.LanguageParameter | src/Skybrud.Social.Google.Places/Options/PlacesGetDetailsOptions.cs:62-70 | `language` is present iff the language is not blank, with its value; the query has one or two parameters |
| NearbySearch.WithPoint | src/Skybrud.Social.Google.Places/Options/PlacesNearbySearchOptions.cs:125-130 | a null point is refused with an argument-null error naming `location`; otherwise it is the latitude/longitude constructor applied to the point's coordinates |
| NearbySearch.GetRequest | src/Skybrud.Social.Google.Places/Options/PlacesNearbySearchOptions.cs:145-170 | fails iff the location is (0,0), naming `Latitude`, whatever the other properties; on success the endpoint is nearbysearch, `location` comes first, the names form a subsequence of the fixed order with no repeats, and no other name appears |
| NearbySearch.FixedParameters | src/Skybrud.Social.Google.Places/Options/PlacesNearbySearchOptions.cs:151-165 | `location` (rendered) and `rankby` are always sent; `fields` is sent iff the list is non-null and non-empty, joined with commas |
| NearbySearch.NumericParameters | src/Skybrud.Social.Google.Places/Options/PlacesNearbySearchOptions.cs:156-160 | `radius` is sent iff the radius is positive; each price bound iff it is not unspecified, as `(int) level - 1` |
| NearbySearch.TextParameters | src/Skybrud.Social.Google.Places/Options/PlacesNearbySearchOptions.cs:157-164 | `keyword`, `language`, `name`, `type` and `pagetoken` are each sent iff the property is not blank, with its value |
| NearbySearch.PageTokenOnlyFails | src/Skybrud.Social.Google.Places/Options/PlacesNearbySearchOptions.cs:136-148 | options built from a page token alone always fail validation, because the location stays (0,0) |
| NearbySearch.PageTokenKeepsOtherParameters | src/Skybrud.Social.Google.Places/Options/PlacesNearbySearchOptions.cs:164 | setting a page token does not change whether the request fails, and changes no parameter other than `pagetoken` |
| NearbySearch.PriceBoundsRecoverable | src/Skybrud.Social.Google.Places/Options/PlacesNearbySearchOptions.cs:159-160 | a specified price bound is sent as an integer in 0..4 that decodes back to the same level |
| NearbySearch.PriceParameterInjective | src/Skybrud.Social.Google.Places/Options/PlacesNearbySearchOptions.cs:159-160 | two price levels are sent as the same value (or both omitted) iff they are the same level |
| NearbySearch.PriceBoundsDistinguishable | src/Skybrud.Social.Google.Places/Options/PlacesNearbySearchOptions.cs:159-160 | the sent `minprice` and `maxprice` (each possibly omitted) agree iff the two bounds are the same level |
| NearbySearch.RadiusRecoverable | src/Skybrud.Social.Google.Places/Options/PlacesNearbySearchOptions.cs:156 | a positive radius is sent as text that parses back to the radius |
| NearbySearch.FieldsRecoverable | src/Skybrud.Social.Google.Places/Options/PlacesNearbySearchOptions.cs:165 | a non-empty field list without commas in its names is sent as text that splits back into the same list |
| NearbySearch.WithLocationRequest | src/Skybrud.Social.Google.Places/Options/PlacesNearbySearchOptions.cs:114-118 | the coordinate constructor yields a request iff the point is not (0,0); the query is then exactly `location`, `radius` iff positive, and `rankby` = prominence |
| TextSearch.GetRequest | src/Skybrud.Social.Google.Places/Options/PlacesTextSearchOptions.cs:118-139 | a null location fails naming `Location`, a (0,0) location fails naming `Latitude`, nothing else fails; on success the first parameter is `query` when the text is not blank and `location` otherwise; names keep the fixed order without repeats |
| TextSearch.NoRankByOrFields | src/Skybrud.Social.Google.Places/Options/PlacesTextSearchOptions.cs:126-134 | no `rankby` and no `fields` parameter is ever sent |
| TextSearch.TextParameters | src/Skybrud.Social.Google.Places/Options/PlacesTextSearchOptions.cs:127-134 | `query`, `language`, `type` and `pagetoken` are each sent iff the property is not blank; `location` is always sent, rendered |
| TextSearch.NumericParameters | src/Skybrud.Social.Google.Places/Options/PlacesTextSearchOptions.cs:129-132 | `radius` is sent iff it is set and positive; a price bound iff it is set, including an explicitly unspecified one, as `(int) level - 1` |
| TextSearch.PriceBoundsRecoverable | src/Skybrud.Social.Google.Places/Options/PlacesTextSearchOptions.cs:131-132 | a set minimum or maximum price decodes back to its level, except that an explicitly unspecified level is sent as -1, which denotes no level |
| TextSearch.WithQueryFails | src/Skybrud.Social.Google.Places/Options/PlacesTextSearchOptions.cs:83-120 | options built from the search text alone never produce a request: the location is null |
| TextSearch.WithPointNullFails | src/Skybrud.Social.Google.Places/Options/PlacesTextSearchOptions.cs:106-120 | the point constructor accepts a null point, and the request then fails naming `Location` |
| TextSearch.WithCoordinatesRequest | src/Skybrud.Social.Google.Places/Options/PlacesTextSearchOptions.cs:94-98 | the coordinate constructor yields a request iff the point is not (0,0); the query is then exactly `query` iff not blank, then `location`, then `radius` iff positive |
| Details.ParseBusinessStatus | src/Skybrud.Social.Google.Places/Models/PlacesDetails.cs:200-203 | a blank or missing value is `Unspecified`; any other value is the enumeration parser's result |
| Details.ParsePriceLevel | src/Skybrud.Social.Google.Places/Models/PlacesDetails.cs:185 | a missing `price_level` gives `Unspecified`; a present one is the enumeration parser's result |
| Details.Parse | src/Skybrud.Social.Google.Places/Models/PlacesDetails.cs:172-216 | null gives null; an object gives a place with its phone number, website, opening hours and place ID copied, a missing rating read as 0, a missing `permanently_closed` as false, and missing `types` as empty |
| Details.BusinessStatusFlag | src/Skybrud.Social.Google.Places/Models/PlacesDetails.cs:38 | a business status is reported iff `business_status` is non-blank and does not parse to `Unspecified` |
| Details.PriceLevelFlag | src/Skybrud.Social.Google.Places/Models/PlacesDetails.cs:113 | a missing `price_level` never reports a price level; a present one reports one iff it parses to a specified level |
| Details.PresenceFlags | src/Skybrud.Social.Google.Places/Models/PlacesDetails.cs:56-166 | a phone number or website is reported iff the object's value is not blank; opening hours iff the object had `opening_hours` |
| Details.ReportedValuesAreVisible | src/Skybrud.Social.Google.Places/Models/PlacesDetails.cs:56 | a reported phone number or website contains a character that is not white space |
| Details.HasRatingAsWrittenInverted | src/Skybrud.Social.Google.Places/Models/PlacesDetails.cs:123 | the flag as written holds iff the rating is missing or not positive |
| Details.HasRatingAsWrittenCounterexample | src/Skybrud.Social.Google.Places/Models/PlacesDetails.cs:123 | an object without `rating` reports a rating, and an object rated 4.5 reports none |
| Details.HasRatingIffRated | src/Skybrud.Social.Google.Places/Models/PlacesDetails.cs:116-123 | the corrected flag holds iff the object carries a positive rating, and is the negation of the flag as written |
| ResponseBodies.ParseStatus | src/Skybrud.Social.Google.Places/Models/PlacesNearbySearchResponseBody.cs:34 | a missing `status` reads as `Ok` (the assumed `GetEnum` default for a missing key, listed under "## Left out"); a present one is the enumeration parser's result |
| ResponseBodies.ParseResults | src/Skybrud.Social.Google.Places/Models/PlacesNearbySearchResponseBody.cs:33 | the page has the array's length, and entry `i` is item `i` parsed, so order is kept and null items stay null |
| ResponseBodies.ParseResultsAppend | src/Skybrud.Social.Google.Places/Models/PlacesNearbySearchResponseBody.cs:33 | parsing a concatenated array concatenates the parsed pages |
| ResponseBodies.FromJson | src/Skybrud.Social.Google.Places/Models/PlacesNearbySearchResponseBody.cs:31-35 | the next-page token is copied, a missing `results` gives an empty page, a present one keeps its length, and the status is read from `status` |
| ResponseBodies.ParseNearby | src/Skybrud.Social.Google.Places/Models/PlacesNearbySearchResponseBody.cs:46-48 | with no null check, a null object still yields a body: no token, no results, status `Ok` |
| ResponseBodies.ParseText | src/Skybrud.Social.Google.Places/Models/PlacesTextSearchResponseBody.cs:46-48 | null gives null; an object gives the same body the nearby parser builds |
| ResponseBodies.NextPageTokenFlag | src/Skybrud.Social.Google.Places/Models/PlacesNearbySearchResponseBody.cs:15 | a next page is reported iff `next_page_token` is not blank; a missing key or a null object reports none; the same holds for the text search body |
| ResponseBodies.ResultsFollowArray | src/Skybrud.Social.Google.Places/Models/PlacesTextSearchResponseBody.cs:33 | result `i` is item `i` of `results` parsed, and it is a place iff the item is an object |
| ResponseBodies.StatusIndependentOfResults | src/Skybrud.Social.Google.Places/Models/PlacesTextSearchResponseBody.cs:33-34 | replacing the array changes no status, and replacing the status changes no result |
| ResponseBodies.NonOkStatusWithResults | src/Skybrud.Social.Google.Places/Models/PlacesNearbySearchResponseBody.cs:33-34 | a page can carry `ZERO_RESULTS` and still list a place |
| ResponseBodies.DetailsBodyFollowsResult | src/Skybrud.Social.Google.Places/Models/PlacesDetailsResponseBody.cs:28-31 | the place of a details body is the `result` object parsed by the place parser, and its status is read from `status` independently of the place |
| ResponseBodies.ParseDetailsBody | src/Skybrud.Social.Google.Places/Models/PlacesDetailsResponseBody.cs:28-44 | null gives null; otherwise the place is present iff `result` is, and a missing status reads as `Ok` (the same assumed `GetEnum` default) |
| Responses.CheckStatus | src/Skybrud.Social.Google.Places/Responses/PlacesResponse.cs:20-36 | passes iff the status is 200; otherwise a Places HTTP error carrying the status, `error.code` (0 when the `error` object or its `code` key is missing) and `error.message` (null when missing). `message` is the argument handed to the exception's constructor, not the exception's `Message` property |
| Responses.Typed | src/Skybrud.Social.Google.Places/Responses/PlacesResponse.cs:45-58 | a typed response has a body iff the status is 200, and that body is the parsed JSON; otherwise it is the base check's error |
| Responses.NearbySearchResponse | src/Skybrud.Social.Google.Places/Responses/PlacesNearbySearchResponse.cs:15-16 | a nearby search response has a body iff the status is 200, and then it is the nearby parser's body |
| Responses.TextSearchResponse | src/Skybrud.Social.Google.Places/Responses/PlacesTextSearchResponse.cs:15-16 | a text search response has a body iff the status is 200, and then it is the text parser's body |
| Responses.DetailsResponse | src/Skybrud.Social.Google.Places/Responses/PlacesDetailsResponse.cs:15-16 | a details response has a body iff the status is 200, and then it is the details parser's body |
| Responses.OkIgnoresErrorObject | src/Skybrud.Social.Google.Places/Responses/PlacesResponse.cs:23 | on 200 the `error` object is never read: changing it changes nothing, and the result is the parsed body |
| Responses.NonOkNeverParsesBody | src/Skybrud.Social.Google.Places/Responses/PlacesResponse.cs:25-34 | on any other status the outcome is the same error whatever the body and the parser |
| Responses.ErrorDeterminesResponse | src/Skybrud.Social.Google.Places/Exceptions/PlacesHttpException.cs:19-33 | the raised error carries the response's status code, the error code and the message: two non-OK responses raising the same error agree on all three |
| QueryStrings.LookupCollect | src/Skybrud.Social.Google.Places/Options/PlacesNearbySearchOptions.cs:151-165 | in a walk over distinct names, a parameter is present iff its condition held, and then it carries the builder's value |
| QueryStrings.CollectNamesInOrder | src/Skybrud.Social.Google.Places/Options/PlacesNearbySearchOptions.cs:151-165 | the emitted names keep the order in which the builder considers them |
| QueryStrings.FormatLocationSplits | src/Skybrud.Social.Google.Places/Options/PlacesNearbySearchOptions.cs:152 | a `location` value splits back at its comma into the two rendered coordinates |
| Strings.NonBlank | src/Skybrud.Social.Google.Places/Options/PlacesGetDetailsOptions.cs:67 | the optional value a builder emits is present iff the property is not blank, and then equals it |
| Strings.IntToStringRoundTrip | src/Skybrud.Social.Google.Places/Options/PlacesNearbySearchOptions.cs:156 | every rendered integer parses back to itself |
| Strings.IntToStringInjective | src/Skybrud.Social.Google.Places/Options/PlacesNearbySearchOptions.cs:156 | two integers rendered to the same text are equal |
| Strings.SplitJoinRoundTrip | src/Skybrud.Social.Google.Places/Options/PlacesNearbySearchOptions.cs:165 | a non-empty list whose items contain no separator splits back out of its join |
| Models.Ord | src/Skybrud.Social.Google.Places/Models/PlacesPriceLevel.cs:7-32 | the ordinal of a price level is at most 5, and is 0 exactly for the unspecified level |
| Models.OrdInjective | src/Skybrud.Social.Google.Places/Models/PlacesPriceLevel.cs:7-32 | two price levels with the same ordinal are the same level |
| Models.PriceLevelWireRoundTrip | src/Skybrud.Social.Google.Places/Options/PlacesNearbySearchOptions.cs:159 | `(int) level - 1` of a specified level lies in 0..4 and decodes back to that level; the unspecified level has no wire value |

## Left out

- HTTP transport. `PlacesHttpClient`, `PlacesHttpService` and `PlacesExtensions` only forward to the underlying HTTP client, so they are not modelled. One defect is noted but not modelled: `PlacesHttpService.NearbySearch(latitude, longitude, radius)` passes the latitude twice.
- JSON extraction. `GetString`, `GetArray`, `GetArrayItems`, `GetEnum`, `GetFloat` and `GetBoolean` belong to an external library. Their results are model inputs: each key is an `Option`.
  - The model assumes that a missing array reads as empty, a missing boolean as false, a missing number as 0, and a missing enumeration as its zero value (`Ok` for `status`, in `ResponseBodies.ParseStatus` and `ResponseBodies.ParseDetailsBody`).
  - `HasValue("price_level")` is taken as "the key is present".
- String-to-enumeration conversion. Only the conversion of a present value, by `EnumUtils.ParseEnum` or `GetEnum`, is passed in as a function (`Details.Coercions`); what `GetEnum` gives for a missing key is the assumption above. The exceptions they throw on unknown names are not modelled.
- Rendering doubles under the invariant culture is passed in as `formatCoord`. `TimeSpan.FromMinutes` for `UtcOffset` is reduced to the number of minutes. IEEE float semantics are not modelled.
- `PlacesRankBy` and `StringUtils.ToCamelCase` are not part of this model. `rankBy` holds the already rendered text. The default constructors use `prominence`, taken to be the rendering of the enumeration's first member.
- `PlacesOpeningHours`, `PlacesGeometry`, `PlacesAddressComponent` and their parsers only copy fields. They appear as already-parsed optional fields of a place.
- `PlacesGetDetailsResponseBody` and `PlacesGetDetailsResponse` are not modelled, because `PlacesDetailsResult` is not part of this model. The current `PlacesDetailsResponseBody` is modelled.
- `ParseJsonObject` of the raw response text is external. A typed response receives its body already parsed, and `None` stands for a null object.
- ResponseBodies.ParseResults: `GetArrayItems("results", PlacesDetails.Parse)` belongs to the JSON library and is not part of this model. The model assumes that every item, nulls included, is passed to the parser at its own position. It therefore promises that length and order are kept and that a null item stays null; the library may instead skip or reject such items.
- ResponseBodies.ResultsFollowArray: rests on the same per-item assumption as `ResponseBodies.ParseResults`.
- `ResponseBodies.ParseNearby`: parsing a null object assumes the JSON helpers return their defaults on null rather than throwing.
- Responses.CheckStatus: the error's `message` is the text passed to the `PlacesHttpException` constructor. When that text is null, .NET's `Exception.Message` shows a default text of its own; this substitution is not modelled. Nor is a non-200 response whose body is not a JSON object (an HTML error page, say): `ParseJsonObject` (`PlacesResponse.cs:25`) then throws the JSON library's exception before the status check, so no Places HTTP error is raised. A response here starts from its already-parsed `error` object.
- The `[ValueRange]` annotations on constructor arguments are documentation only. The source does not enforce them, so the model does not check them.

## Findings

| source | as written | input that shows it | evidently intended | confidence | as-written member | corrected member |
|---|---|---|---|---|---|---|
| src/Skybrud.Social.Google.Places/Models/PlacesDetails.cs:123 | `HasRating => Rating < float.Epsilon`, which is true iff the rating is not positive | a place object without `rating` (rating 0) gives true; one with `"rating": 4.5` gives false | `Rating >= float.Epsilon`, i.e. true iff the place has a positive rating | high; not executed | Details.HasRatingAsWrittenCounterexample | Details.HasRatingIffRated |

=== FILE: basics.dfy ===
/** Shared value types of the Google Places client model: optional values,
    results of operations that can fail, and the errors the library raises. */
module Basics {

  /** A value that may be absent; stands for a C# reference or nullable value
      that may be null. */
  datatype Option<+T> = None | Some(value: T) {

    /** Returns the value, or `default` when there is none. */
    function GetOr(default: T): T {
      match this
      case Some(v) => v
      case None => default
    }
  }

  /** The outcome of an operation that either returns a value or throws. */
  datatype Result<+R, +E> = Success(value: R) | Failure(error: E)

  /** The exceptions the modelled code raises.
      - PropertyNotSet: a required options property was missing at request time
        (the property's name is carried, as `nameof` renders it);
      - ArgumentNull: a constructor was given a null argument;
      - PlacesHttp: the Places API answered with a non-OK HTTP status; carries
        that status, the provider's error code and the provider's message (the
        text handed to the exception's constructor, null when missing). */
  datatype Error =
    | PropertyNotSet(property: string)
    | ArgumentNull(parameter: string)
    | PlacesHttp(statusCode: int, code: int, message: Option<string>)
}

=== FILE: details.dfy ===
/** A place as the Places API describes it (`PlacesDetails`): the fields read
    from a JSON object, the defaults applied to missing keys, and the derived
    `Has*` flags. */
module Details {
  import opened Basics
  import opened Strings
  import opened Models

  /** The keys of a place object that the parser reads, each None when the key
      is missing or null. Nested objects (`geometry`, `opening_hours`, the
      address components) arrive already parsed. `price_level` and
      `business_status` carry the raw token text; turning that text into an
      enumeration member is the JSON library's job and is passed in as a
      `Coercions` value. */
  datatype DetailsJson = DetailsJson(
    addressComponents: Option<seq<AddressComponent>>,
    adrAddress: Option<string>,
    businessStatus: Option<string>,
    formattedAddress: Option<string>,
    formattedPhoneNumber: Option<string>,
    geometry: Option<Geometry>,
    icon: Option<string>,
    internationalPhoneNumber: Option<string>,
    name: Option<string>,
    openingHours: Option<OpeningHours>,
    permanentlyClosed: Option<bool>,
    placeId: Option<string>,
    priceLevel: Option<string>,
    rating: Option<real>,
    reference: Option<string>,
    scope: Option<string>,
    types: Option<seq<string>>,
    url: Option<string>,
    utcOffset: Option<real>,
    vicinity: Option<string>,
    website: Option<string>)

  /** A JSON object with none of the keys above. */
  function EmptyJson(): DetailsJson {
    DetailsJson(None, None, None, None, None, None, None, None, None, None, None,
                None, None, None, None, None, None, None, None, None, None)
  }

  /** The string-to-enumeration conversions of the JSON library. */
  datatype Coercions = Coercions(
    businessStatus: string -> BusinessStatus,
    priceLevel: string -> PriceLevel,
    status: string -> ResponseStatusCode)

  /** A parsed place. Strings stay nullable; the array, boolean and number
      fields hold their defaults when the key was missing; `utcOffsetMinutes`
      is the `utc_offset` number of minutes the `TimeSpan` is built from. */
  datatype PlacesDetails = PlacesDetails(
    addressComponents: seq<AddressComponent>,
    adrAddress: Option<string>,
    businessStatus: BusinessStatus,
    formattedAddress: Option<string>,
    formattedPhoneNumber: Option<string>,
    geometry: Option<Geometry>,
    icon: Option<string>,
    internationalPhoneNumber: Option<string>,
    name: Option<string>,
    openingHours: Option<OpeningHours>,
    hasPermanentlyClosed: bool,
    placeId: Option<string>,
    priceLevel: PriceLevel,
    rating: real,
    reference: Option<string>,
    scope: Option<string>,
    types: seq<string>,
    url: Option<string>,
    utcOffsetMinutes: real,
    vicinity: Option<string>,
    website: Option<string>)

  /** `ParseBusinessStatus`: a blank or missing value is `Unspecified`; any
      other value goes through the library's enumeration parser. */
  function ParseBusinessStatus(value: Option<string>, parseEnum: string -> BusinessStatus): (s: BusinessStatus)
    ensures IsBlank(value) ==> s.Unspecified?
    ensures !IsBlank(value) ==> s == parseEnum(value.value)
  {
    if IsBlank(value) then BusinessStatus.Unspecified else parseEnum(value.value)
  }

  /** `price_level` when the key has a value, `Unspecified` otherwise. */
  function ParsePriceLevel(value: Option<string>, parseEnum: string -> PriceLevel): (p: PriceLevel)
    ensures value.None? ==> p.Unspecified?
    ensures value.Some? ==> p == parseEnum(value.value)
  {
    if value.Some? then parseEnum(value.value) else PriceLevel.Unspecified
  }

  /** `Parse`: null gives null; an object gives a place whose fields are the
      object's values, with the defaults of missing keys applied. */
  function Parse(obj: Option<DetailsJson>, coerce: Coercions): (r: Option<PlacesDetails>)
    ensures r.Some? <==> obj.Some?
    ensures r.Some? ==> r.value.formattedPhoneNumber == obj.value.formattedPhoneNumber
    ensures r.Some? ==> r.value.website == obj.value.website
    ensures r.Some? ==> r.value.openingHours == obj.value.openingHours
    ensures r.Some? ==> r.value.placeId == obj.value.placeId
    ensures r.Some? && obj.value.rating.None? ==> r.value.rating == 0.0
    ensures r.Some? && obj.value.permanentlyClosed.None? ==> !r.value.hasPermanentlyClosed
    ensures r.Some? && obj.value.types.None? ==> r.value.types == []
  {
    match obj
    case None => None
    case Some(j) =>
      Some(PlacesDetails(
        j.addressComponents.GetOr([]),
        j.adrAddress,
        ParseBusinessStatus(j.businessStatus, coerce.businessStatus),
        j.formattedAddress,
        j.formattedPhoneNumber,
        j.geometry,
        j.icon,
        j.internationalPhoneNumber,
        j.name,
        j.openingHours,
        j.permanentlyClosed.GetOr(false),
        j.placeId,
        ParsePriceLevel(j.priceLevel, coerce.priceLevel),
        j.rating.GetOr(0.0),
        j.reference,
        j.scope,
        j.types.GetOr([]),
        j.url,
        j.utcOffset.GetOr(0.0),
        j.vicinity,
        j.website))
  }

  // ---------------------------------------------------------------------
  // Derived flags.

  predicate HasPlacesBusinessStatus(d: PlacesDetails) {
    !d.businessStatus.Unspecified?
  }

  predicate HasPhoneNumber(d: PlacesDetails) {
    !IsBlank(d.formattedPhoneNumber)
  }

  predicate HasOpeningHours(d: PlacesDetails) {
    d.openingHours.Some?
  }

  predicate HasPriceLevel(d: PlacesDetails) {
    !d.priceLevel.Unspecified?
  }

  predicate HasWebsite(d: PlacesDetails) {
    !IsBlank(d.website)
  }

  /** `HasRating` as written: `Rating < float.Epsilon`. `float.Epsilon` is the
      least positive float, so this holds exactly when the rating is not
      positive, i.e. when the place has NO rating. */
  predicate HasRatingAsWritten(d: PlacesDetails) {
    d.rating <= 0.0
  }

  /** `HasRating` as documented ("whether the rating has a value"): ratings
      run from 1.0 to 5.0 and a missing one reads as 0. */
  predicate HasRatingIntended(d: PlacesDetails) {
    d.rating > 0.0
  }

  /** A business status is reported iff the object carries a non-blank
      `business_status` that the library does not map to `Unspecified`. */
  lemma BusinessStatusFlag(j: DetailsJson, coerce: Coercions)
    ensures HasPlacesBusinessStatus(Parse(Some(j), coerce).value)
        <==> !IsBlank(j.businessStatus) && !coerce.businessStatus(j.businessStatus.value).Unspecified?
  {
  }

  /** A missing `price_level` never reports a price level; a present one does
      iff its member is a specified level. */
  lemma PriceLevelFlag(j: DetailsJson, coerce: Coercions)
    ensures j.priceLevel.None? ==> !HasPriceLevel(Parse(Some(j), coerce).value)
    ensures j.priceLevel.Some? ==>
      (HasPriceLevel(Parse(Some(j), coerce).value) <==> !coerce.priceLevel(j.priceLevel.value).Unspecified?)
  {
  }

  /** Phone number and website are reported iff the object's value is not
      blank; opening hours iff the object had an `opening_hours` object. */
  lemma PresenceFlags(j: DetailsJson, coerce: Coercions)
    ensures HasPhoneNumber(Parse(Some(j), coerce).value) <==> !IsBlank(j.formattedPhoneNumber)
    ensures HasWebsite(Parse(Some(j), coerce).value) <==> !IsBlank(j.website)
    ensures HasOpeningHours(Parse(Some(j), coerce).value) <==> j.openingHours.Some?
  {
  }

  /** A reported phone number or website has a character that is not white
      space. */
  lemma ReportedValuesAreVisible(d: PlacesDetails)
    ensures HasPhoneNumber(d) ==>
      exists i :: 0 <= i < |d.formattedPhoneNumber.value| && !IsWhiteSpace(d.formattedPhoneNumber.value[i])
    ensures HasWebsite(d) ==>
      exists i :: 0 <= i < |d.website.value| && !IsWhiteSpace(d.website.value[i])
  {
    if HasPhoneNumber(d) {
      NonBlankHasVisibleChar(d.formattedPhoneNumber);
    }
    if HasWebsite(d) {
      NonBlankHasVisibleChar(d.website);
    }
  }

  /** The flag as written is true exactly for places without a positive
      rating, the absent-rating case included. */
  lemma HasRatingAsWrittenInverted(j: DetailsJson, coerce: Coercions)
    ensures HasRatingAsWritten(Parse(Some(j), coerce).value)
        <==> j.rating.None? || j.rating.value <= 0.0
    ensures j.rating.None? ==> HasRatingAsWritten(Parse(Some(j), coerce).value)
  {
  }

  /** The concrete discrepancy: an object without `rating` reports a rating,
      and one rated 4.5 reports none. */
  lemma HasRatingAsWrittenCounterexample(coerce: Coercions)
    ensures HasRatingAsWritten(Parse(Some(EmptyJson()), coerce).value)
    ensures !HasRatingAsWritten(Parse(Some(EmptyJson().(rating := Some(4.5))), coerce).value)
  {
  }

  /** The corrected flag is true exactly when the object carries a positive
      rating, and it is the negation of the flag as written. */
  lemma HasRatingIffRated(j: DetailsJson, coerce: Coercions)
    ensures HasRatingIntended(Parse(Some(j), coerce).value) <==> j.rating.Some? && j.rating.value > 0.0
    ensures HasRatingIntended(Parse(Some(j), coerce).value) <==> !HasRatingAsWritten(Parse(Some(j), coerce).value)
  {
  }
}

=== FILE: get_details.dfy ===
/** Options for the Place Details endpoint (`PlacesGetDetailsOptions`) and
    the request they build. */
module GetDetails {
  import opened Basics
  import opened Strings
  import opened QueryStrings

  const Url: string := "https://maps.googleapis.com/maps/api/place/details/json"

  /** The place to describe and the optional response language. */
  datatype Options = Options(placeId: Option<string>, language: Option<string>)

  /** The parameterless constructor: nothing set. */
  function Default(): Options {
    Options(None, None)
  }

  /** The constructor taking a place ID. */
  function WithPlaceId(placeId: Option<string>): Options {
    Options(placeId, None)
  }

  function Candidates(o: Options): seq<Candidate> {
    [ Candidate("placeid", o.placeId),
      Candidate("language", NonBlank(o.language)) ]
  }

  /** `GetRequest`: a blank place ID is refused; otherwise the query holds the
      place ID first and the language after it exactly when one is given. */
  function GetRequest(o: Options): (r: Result<HttpRequest, Error>)
    ensures r.Failure? <==> IsBlank(o.placeId)
    ensures r.Failure? ==> r.error == PropertyNotSet("PlaceId")
    ensures r.Success? ==> r.value.url == Url
    ensures r.Success? ==>
      r.value.query == [("placeid", o.placeId.value)]
                     + (if IsBlank(o.language) then [] else [("language", o.language.value)])
  {
    if IsBlank(o.placeId) then Failure(PropertyNotSet("PlaceId"))
    else
      var cs := Candidates(o);
      assert cs == [cs[0]] + [cs[1]];
      CollectAppend([cs[0]], [cs[1]]);
      CollectOne(cs[0]);
      CollectOne(cs[1]);
      Success(HttpRequest(Url, Collect(cs)))
  }

  /** The one-argument constructor yields a request exactly when the ID is not
      blank, and that request carries the ID, unchanged, as its only parameter. */
  lemma WithPlaceIdRequest(placeId: Option<string>)
    ensures GetRequest(WithPlaceId(placeId))
         == if IsBlank(placeId) then Failure(PropertyNotSet("PlaceId"))
            else Success(HttpRequest(Url, [("placeid", placeId.value)]))
  {
    if !IsBlank(placeId) {
      assert [("placeid", placeId.value)] + [] == [("placeid", placeId.value)];
    }
  }

  /** The language parameter is present iff the language is not blank, and the
      query has one or two parameters. */
  lemma LanguageParameter(o: Options)
    requires GetRequest(o).Success?
    ensures Lookup(GetRequest(o).value.query, "language") == NonBlank(o.language)
    ensures 1 <= |GetRequest(o).value.query| <= 2
  {
  }
}

=== FILE: models.dfy ===
/** Value types shared by requests and parsed responses: the enumerations of
    the Places API, points, and the nested records of a place. */
module Models {
  import opened Basics

  /** Price level of a place. `Unspecified` is the "no value" member the code
      compares against; it is the enumeration's zero value, so `Free` is 1 and
      `VeryExpensive` is 5 internally, and the API's 0..4 scale is one less. */
  datatype PriceLevel = Unspecified | Free | Inexpensive | Moderate | Expensive | VeryExpensive

  /** The integer value of a price level (`(int) level`). */
  function Ord(p: PriceLevel): (n: nat)
    ensures n <= 5
    ensures n == 0 <==> p.Unspecified?
  {
    match p
    case Unspecified => 0
    case Free => 1
    case Inexpensive => 2
    case Moderate => 3
    case Expensive => 4
    case VeryExpensive => 5
  }

  /** The level a wire value of the API's 0..4 scale denotes. */
  function PriceLevelOfWire(w: int): Option<PriceLevel> {
    if w == 0 then Some(Free)
    else if w == 1 then Some(Inexpensive)
    else if w == 2 then Some(Moderate)
    else if w == 3 then Some(Expensive)
    else if w == 4 then Some(VeryExpensive)
    else None
  }

  /** The `(int) level - 1` a builder sends is the API's value for every
      specified level, lies in 0..4, and decodes back to the same level; the
      unspecified level has no wire value. */
  lemma PriceLevelWireRoundTrip(p: PriceLevel)
    ensures !p.Unspecified? ==> 0 <= Ord(p) - 1 <= 4
    ensures PriceLevelOfWire(Ord(p) - 1) == (if p.Unspecified? then None else Some(p))
  {
  }

  /** Two price levels with the same ordinal are the same level. */
  lemma OrdInjective(p: PriceLevel, q: PriceLevel)
    requires Ord(p) == Ord(q)
    ensures p == q
  {
  }

  /** Operational status of a business; `Unspecified` when none was given. */
  datatype BusinessStatus = Unspecified | Operational | ClosedTemporarily | ClosedPermanently

  /** The API's own outcome code inside a successful HTTP response. `Ok` is the
      enumeration's zero value, which is what a missing `status` yields. */
  datatype ResponseStatusCode = Ok | UnknownError | ZeroResults | OverQueryLimit
                              | RequestDenied | InvalidRequest | NotFound

  /** A latitude/longitude pair (`IPoint`). */
  datatype Point = Point(latitude: real, longitude: real)

  /** `Math.Abs(lat) < double.Epsilon && Math.Abs(lng) < double.Epsilon`.
      `double.Epsilon` is the least positive double, so on doubles the test
      holds exactly when both coordinates are zero. */
  predicate IsZeroLocation(latitude: real, longitude: real) {
    latitude == 0.0 && longitude == 0.0
  }

  /** The viewport of a place: two optional corners. */
  datatype Viewport = Viewport(northEast: Option<Point>, southWest: Option<Point>)

  /** Geometry of a place: its optional location and viewport. */
  datatype Geometry = Geometry(location: Option<Point>, viewport: Option<Viewport>)

  /** One named component of a postal address. */
  datatype AddressComponent = AddressComponent(longName: Option<string>, shortName: Option<string>, types: seq<string>)

  /** Opening hours of a place, reduced to its periods; of a period only
      whether it has an opening and a closing item is kept (a place open around
      the clock has an opening item and no closing one). */
  datatype OpeningHoursPeriod = OpeningHoursPeriod(hasOpen: bool, hasClose: bool)
  datatype OpeningHours = OpeningHours(periods: seq<OpeningHoursPeriod>)
}

=== FILE: nearby_search.dfy ===
/** Options for the Nearby Search endpoint (`PlacesNearbySearchOptions`) and
    the request they build. */
module NearbySearch {
  import opened Basics
  import opened Strings
  import opened QueryStrings
  import opened Models

  const Url: string := "https://maps.googleapis.com/maps/api/place/nearbysearch/json"

  /** The ranking a fresh options object renders: the first member of the
      ranking enumeration, camel-cased. */
  const DefaultRankBy: string := "prominence"

  /** Every parameter the builder may emit, in the order it considers them. */
  const ParameterOrder: seq<string> :=
    ["location", "radius", "keyword", "language", "minprice", "maxprice",
     "name", "rankby", "type", "pagetoken", "fields"]

  /** The properties of a nearby search. `rankBy` holds the ranking already
      rendered as the API spells it; `placeType` is the `Type` property. */
  datatype Options = Options(
    latitude: real,
    longitude: real,
    radius: int,
    keyword: Option<string>,
    language: Option<string>,
    minPrice: PriceLevel,
    maxPrice: PriceLevel,
    name: Option<string>,
    rankBy: string,
    placeType: Option<string>,
    pageToken: Option<string>,
    fields: Option<seq<string>>)

  /** The parameterless constructor: every property at its default. */
  function Default(): Options {
    Options(0.0, 0.0, 0, None, None, PriceLevel.Unspecified, PriceLevel.Unspecified,
            None, DefaultRankBy, None, None, None)
  }

  /** The constructor taking latitude, longitude and radius. */
  function WithLocation(latitude: real, longitude: real, radius: int): Options {
    Default().(latitude := latitude, longitude := longitude, radius := radius)
  }

  /** The constructor taking a point and a radius; a null point is refused. */
  function WithPoint(location: Option<Point>, radius: int): (r: Result<Options, Error>)
    ensures r.Failure? <==> location.None?
    ensures r.Failure? ==> r.error == ArgumentNull("location")
    ensures r.Success? ==> r.value == WithLocation(location.value.latitude, location.value.longitude, radius)
  {
    match location
    case None => Failure(ArgumentNull("location"))
    case Some(p) => Success(Default().(latitude := p.latitude, longitude := p.longitude, radius := radius))
  }

  /** The constructor taking the page token of a previous search. */
  function WithPageToken(pageToken: Option<string>): Options {
    Default().(pageToken := pageToken)
  }

  /** `minprice`/`maxprice` value: `(int) level - 1`, omitted when unspecified. */
  function PriceParameter(p: PriceLevel): Option<string> {
    if p.Unspecified? then None else Some(IntToString(Ord(p) - 1))
  }

  /** `fields` value: the names joined with commas, omitted for a null or empty list. */
  function FieldsParameter(fields: Option<seq<string>>): Option<string> {
    if fields.Some? && |fields.value| > 0 then Some(Join(fields.value, ',')) else None
  }

  function Candidates(o: Options, formatCoord: real -> string): seq<Candidate> {
    [ Candidate(ParameterOrder[0], Some(FormatLocation(o.latitude, o.longitude, formatCoord))),
      Candidate(ParameterOrder[1], if o.radius > 0 then Some(IntToString(o.radius)) else None),
      Candidate(ParameterOrder[2], NonBlank(o.keyword)),
      Candidate(ParameterOrder[3], NonBlank(o.language)),
      Candidate(ParameterOrder[4], PriceParameter(o.minPrice)),
      Candidate(ParameterOrder[5], PriceParameter(o.maxPrice)),
      Candidate(ParameterOrder[6], NonBlank(o.name)),
      Candidate(ParameterOrder[7], Some(o.rankBy)),
      Candidate(ParameterOrder[8], NonBlank(o.placeType)),
      Candidate(ParameterOrder[9], NonBlank(o.pageToken)),
      Candidate(ParameterOrder[10], FieldsParameter(o.fields)) ]
  }

  lemma ParameterOrderDistinct()
    ensures NoDuplicates(ParameterOrder)
  {
  }

  lemma CandidateNamesAreParameterOrder(o: Options, formatCoord: real -> string)
    ensures CandidateNames(Candidates(o, formatCoord)) == ParameterOrder
    ensures NoDuplicates(ParameterOrder)
  {
    ParameterOrderDistinct();
  }

  /** `GetRequest`. It fails exactly when the location is (0,0), whatever the
      other properties (page token included). Otherwise the query starts with
      `location`, its names follow `ParameterOrder` with none repeated, and no
      other name is sent. */
  function GetRequest(o: Options, formatCoord: real -> string): (r: Result<HttpRequest, Error>)
    ensures r.Failure? <==> IsZeroLocation(o.latitude, o.longitude)
    ensures r.Failure? ==> r.error == PropertyNotSet("Latitude")
    ensures r.Success? ==> r.value.url == Url
    ensures r.Success? ==>
      (|r.value.query| > 0
       && r.value.query[0] == ("location", FormatLocation(o.latitude, o.longitude, formatCoord)))
    ensures r.Success? ==> IsSubsequence(Names(r.value.query), ParameterOrder)
    ensures r.Success? ==> NoDuplicates(Names(r.value.query))
    ensures r.Success? ==> forall n :: n !in ParameterOrder ==> Lookup(r.value.query, n) == None
  {
    if IsZeroLocation(o.latitude, o.longitude) then Failure(PropertyNotSet("Latitude"))
    else
      var cs := Candidates(o, formatCoord);
      CandidateNamesAreParameterOrder(o, formatCoord);
      CollectNamesInOrder(cs);
      SubsequenceNoDuplicates(Names(Collect(cs)), ParameterOrder);
      forall n | n !in ParameterOrder ensures Lookup(Collect(cs), n) == None {
        LookupNotCandidate(cs, n);
      }
      assert cs == [cs[0]] + cs[1..];
      CollectAppend([cs[0]], cs[1..]);
      CollectOne(cs[0]);
      Success(HttpRequest(Url, Collect(cs)))
  }

  /** `location` and `rankby` are always sent, with the rendered location and
      the ranking; `fields` iff the list is non-null and non-empty, as the
      names joined with commas. */
  lemma FixedParameters(o: Options, formatCoord: real -> string)
    requires GetRequest(o, formatCoord).Success?
    ensures Lookup(GetRequest(o, formatCoord).value.query, "location")
         == Some(FormatLocation(o.latitude, o.longitude, formatCoord))
    ensures Lookup(GetRequest(o, formatCoord).value.query, "rankby") == Some(o.rankBy)
    ensures Lookup(GetRequest(o, formatCoord).value.query, "fields")
         == (if o.fields.Some? && |o.fields.value| > 0 then Some(Join(o.fields.value, ',')) else None)
  {
    var cs := Candidates(o, formatCoord);
    CandidateNamesAreParameterOrder(o, formatCoord);
    assert Lookup(Collect(cs), "location") == cs[0].value by { LookupCollect(cs, 0); }
    assert Lookup(Collect(cs), "rankby") == cs[7].value by { LookupCollect(cs, 7); }
    assert Lookup(Collect(cs), "fields") == cs[10].value by { LookupCollect(cs, 10); }
  }

  /** `radius` is sent iff the radius is positive, as its decimal rendering; a
      price bound iff it is specified, as `(int) level - 1`. */
  lemma NumericParameters(o: Options, formatCoord: real -> string)
    requires GetRequest(o, formatCoord).Success?
    ensures Lookup(GetRequest(o, formatCoord).value.query, "radius")
         == (if o.radius > 0 then Some(IntToString(o.radius)) else None)
    ensures Lookup(GetRequest(o, formatCoord).value.query, "minprice")
         == (if o.minPrice.Unspecified? then None else Some(IntToString(Ord(o.minPrice) - 1)))
    ensures Lookup(GetRequest(o, formatCoord).value.query, "maxprice")
         == (if o.maxPrice.Unspecified? then None else Some(IntToString(Ord(o.maxPrice) - 1)))
  {
    var cs := Candidates(o, formatCoord);
    CandidateNamesAreParameterOrder(o, formatCoord);
    assert Lookup(Collect(cs), "radius") == cs[1].value by { LookupCollect(cs, 1); }
    assert Lookup(Collect(cs), "minprice") == cs[4].value by { LookupCollect(cs, 4); }
    assert Lookup(Collect(cs), "maxprice") == cs[5].value by { LookupCollect(cs, 5); }
  }

  /** `keyword`, `language`, `name`, `type` and `pagetoken` are each sent iff
      the property is not blank, carrying its value. */
  lemma TextParameters(o: Options, formatCoord: real -> string)
    requires GetRequest(o, formatCoord).Success?
    ensures Lookup(GetRequest(o, formatCoord).value.query, "keyword") == NonBlank(o.keyword)
    ensures Lookup(GetRequest(o, formatCoord).value.query, "language") == NonBlank(o.language)
    ensures Lookup(GetRequest(o, formatCoord).value.query, "name") == NonBlank(o.name)
    ensures Lookup(GetRequest(o, formatCoord).value.query, "type") == NonBlank(o.placeType)
    ensures Lookup(GetRequest(o, formatCoord).value.query, "pagetoken") == NonBlank(o.pageToken)
  {
    var cs := Candidates(o, formatCoord);
    CandidateNamesAreParameterOrder(o, formatCoord);
    assert Lookup(Collect(cs), "keyword") == cs[2].value by { LookupCollect(cs, 2); }
    assert Lookup(Collect(cs), "language") == cs[3].value by { LookupCollect(cs, 3); }
    assert Lookup(Collect(cs), "name") == cs[6].value by { LookupCollect(cs, 6); }
    assert Lookup(Collect(cs), "type") == cs[8].value by { LookupCollect(cs, 8); }
    assert Lookup(Collect(cs), "pagetoken") == cs[9].value by { LookupCollect(cs, 9); }
  }

  /** Options that hold only a page token never produce a request: the page
      token does not exempt them from the location check. */
  lemma PageTokenOnlyFails(pageToken: Option<string>, formatCoord: real -> string)
    ensures GetRequest(WithPageToken(pageToken), formatCoord) == Failure(PropertyNotSet("Latitude"))
  {
  }

  /** Setting a page token neither changes whether a request is built nor
      removes or alters any other parameter. */
  lemma PageTokenKeepsOtherParameters(o: Options, pageToken: string, formatCoord: real -> string)
    ensures GetRequest(o.(pageToken := Some(pageToken)), formatCoord).Success?
        <==> GetRequest(o, formatCoord).Success?
    ensures GetRequest(o, formatCoord).Success? ==>
      forall n :: n != "pagetoken" ==>
        Lookup(GetRequest(o.(pageToken := Some(pageToken)), formatCoord).value.query, n)
        == Lookup(GetRequest(o, formatCoord).value.query, n)
  {
    var o' := o.(pageToken := Some(pageToken));
    if GetRequest(o, formatCoord).Success? {
      var cs := Candidates(o, formatCoord);
      var cs' := Candidates(o', formatCoord);
      assert cs' == cs[9 := Candidate(ParameterOrder[9], NonBlank(Some(pageToken)))];
      CandidateNamesAreParameterOrder(o, formatCoord);
      CandidateNamesAreParameterOrder(o', formatCoord);
      forall n | n != "pagetoken"
        ensures Lookup(Collect(cs'), n) == Lookup(Collect(cs), n)
      {
        if n in ParameterOrder {
          var i :| 0 <= i < |ParameterOrder| && ParameterOrder[i] == n;
          LookupCollect(cs, i);
          LookupCollect(cs', i);
        } else {
          LookupNotCandidate(cs, n);
          LookupNotCandidate(cs', n);
        }
      }
    }
  }

  /** A specified price bound reaches the API as a number in 0..4 that decodes
      back to the same level. */
  lemma PriceBoundsRecoverable(o: Options, formatCoord: real -> string)
    requires GetRequest(o, formatCoord).Success?
    ensures !o.minPrice.Unspecified? ==>
      var v := Lookup(GetRequest(o, formatCoord).value.query, "minprice");
      && v.Some? && ParseInt(v.value).Some?
      && 0 <= ParseInt(v.value).value <= 4
      && PriceLevelOfWire(ParseInt(v.value).value) == Some(o.minPrice)
    ensures !o.maxPrice.Unspecified? ==>
      var v := Lookup(GetRequest(o, formatCoord).value.query, "maxprice");
      && v.Some? && ParseInt(v.value).Some?
      && 0 <= ParseInt(v.value).value <= 4
      && PriceLevelOfWire(ParseInt(v.value).value) == Some(o.maxPrice)
  {
    NumericParameters(o, formatCoord);
    IntToStringRoundTrip(Ord(o.minPrice) - 1);
    IntToStringRoundTrip(Ord(o.maxPrice) - 1);
    PriceLevelWireRoundTrip(o.minPrice);
    PriceLevelWireRoundTrip(o.maxPrice);
  }

  /** Distinct levels are sent as distinct values: the unspecified level is
      the only one omitted, and the others render to distinct numbers. */
  lemma PriceParameterInjective(p: PriceLevel, q: PriceLevel)
    ensures PriceParameter(p) == PriceParameter(q) <==> p == q
  {
    if PriceParameter(p) == PriceParameter(q) && !p.Unspecified? && !q.Unspecified? {
      IntToStringInjective(Ord(p) - 1, Ord(q) - 1);
      OrdInjective(p, q);
    }
  }

  /** The sent `minprice` and `maxprice` (each possibly omitted) agree exactly
      when the two bounds are the same level: distinct levels never collide on
      the wire. */
  lemma PriceBoundsDistinguishable(o: Options, formatCoord: real -> string)
    requires GetRequest(o, formatCoord).Success?
    ensures Lookup(GetRequest(o, formatCoord).value.query, "minprice")
         == Lookup(GetRequest(o, formatCoord).value.query, "maxprice")
        <==> o.minPrice == o.maxPrice
  {
    NumericParameters(o, formatCoord);
    PriceParameterInjective(o.minPrice, o.maxPrice);
  }

  /** A positive radius reaches the API as a number that reads back as itself. */
  lemma RadiusRecoverable(o: Options, formatCoord: real -> string)
    requires GetRequest(o, formatCoord).Success? && o.radius > 0
    ensures var v := Lookup(GetRequest(o, formatCoord).value.query, "radius");
      v.Some? && ParseInt(v.value) == Some(o.radius)
  {
    NumericParameters(o, formatCoord);
    IntToStringRoundTrip(o.radius);
  }

  /** A non-empty field list whose names contain no comma reaches the API as a
      value it splits back into the same list. */
  lemma FieldsRecoverable(o: Options, formatCoord: real -> string)
    requires GetRequest(o, formatCoord).Success?
    requires o.fields.Some? && |o.fields.value| > 0
    requires forall i :: 0 <= i < |o.fields.value| ==> ',' !in o.fields.value[i]
    ensures var v := Lookup(GetRequest(o, formatCoord).value.query, "fields");
      v.Some? && Split(v.value, ',') == o.fields.value
  {
    FixedParameters(o, formatCoord);
    SplitJoinRoundTrip(o.fields.value, ',');
  }

  /** The coordinate constructor yields a request exactly when the point is not
      (0,0); the request then holds the location, the radius when positive, and
      the default ranking, and nothing else. */
  lemma WithLocationRequest(latitude: real, longitude: real, radius: int, formatCoord: real -> string)
    ensures GetRequest(WithLocation(latitude, longitude, radius), formatCoord).Success?
        <==> !IsZeroLocation(latitude, longitude)
    ensures GetRequest(WithLocation(latitude, longitude, radius), formatCoord).Success? ==>
      GetRequest(WithLocation(latitude, longitude, radius), formatCoord).value.query
      == [("location", FormatLocation(latitude, longitude, formatCoord))]
       + (if radius > 0 then [("radius", IntToString(radius))] else [])
       + [("rankby", DefaultRankBy)]
  {
    var o := WithLocation(latitude, longitude, radius);
    if !IsZeroLocation(latitude, longitude) {
      var cs := Candidates(o, formatCoord);
      assert cs == [cs[0]] + [cs[1]] + cs[2..7] + [cs[7]] + cs[8..];
      CollectAppend([cs[0]] + [cs[1]] + cs[2..7] + [cs[7]], cs[8..]);
      CollectAppend([cs[0]] + [cs[1]] + cs[2..7], [cs[7]]);
      CollectAppend([cs[0]] + [cs[1]], cs[2..7]);
      CollectAppend([cs[0]], [cs[1]]);
      CollectOne(cs[0]);
      CollectOne(cs[1]);
      CollectOne(cs[7]);
      assert cs[2..7] == [cs[2], cs[3], cs[4], cs[5], cs[6]];
      assert cs[2].value.None? && cs[3].value.None? && cs[4].value.None?
          && cs[5].value.None? && cs[6].value.None?;
      CollectNothing(cs[2..7]);
      CollectNothing(cs[8..]);
    }
  }
}

=== FILE: query_strings.dfy ===
/** The query string of an HTTP GET request, as the options builders produce
    it: an ordered list of name/value pairs.

    Every builder has the same shape: after validation it walks a fixed list of
    parameters and, for each, either appends `(name, value)` or skips it. A
    `Candidate` records one step of that walk: `value` is None exactly when the
    builder's condition for the parameter is false. `Collect` performs the walk. */
module QueryStrings {
  import opened Basics
  import opened Strings

  type QueryString = seq<(string, string)>

  /** A GET request: the endpoint URL and its query string. */
  datatype HttpRequest = HttpRequest(url: string, query: QueryString)

  /** One conditional `query.Add(name, value)` of a builder. */
  datatype Candidate = Candidate(name: string, value: Option<string>)

  /** Parameter names of a query, in order. */
  function Names(q: QueryString): (ns: seq<string>)
    ensures |ns| == |q|
    ensures forall i :: 0 <= i < |q| ==> ns[i] == q[i].0
  {
    if |q| == 0 then [] else [q[0].0] + Names(q[1..])
  }

  /** The names the builder considers, in the order it considers them. */
  function CandidateNames(cs: seq<Candidate>): (ns: seq<string>)
    ensures |ns| == |cs|
  {
    seq(|cs|, i requires 0 <= i < |cs| => cs[i].name)
  }

  /** The value of the first parameter called `name`, if any. */
  function Lookup(q: QueryString, name: string): Option<string> {
    if |q| == 0 then None
    else if q[0].0 == name then Some(q[0].1)
    else Lookup(q[1..], name)
  }

  /** A name has a value in the query iff it is one of the query's names. */
  lemma {:induction false} LookupFindsNames(q: QueryString, name: string)
    ensures Lookup(q, name).Some? <==> name in Names(q)
  {
    if |q| > 0 {
      LookupFindsNames(q[1..], name);
      assert Names(q) == [q[0].0] + Names(q[1..]);
    }
  }

  /** Appends, in order, the candidates whose condition held. */
  function Collect(cs: seq<Candidate>): (q: QueryString)
    ensures |q| <= |cs|
  {
    if |cs| == 0 then []
    else
      match cs[0].value
      case Some(v) => [(cs[0].name, v)] + Collect(cs[1..])
      case None => Collect(cs[1..])
  }

  /** The query of a single candidate. */
  lemma CollectOne(c: Candidate)
    ensures Collect([c]) == if c.value.Some? then [(c.name, c.value.value)] else []
  {
    assert [c][1..] == [];
  }

  /** Walking two lists in turn appends their queries. */
  lemma {:induction false} CollectAppend(a: seq<Candidate>, b: seq<Candidate>)
    ensures Collect(a + b) == Collect(a) + Collect(b)
  {
    if |a| > 0 {
      assert (a + b)[0] == a[0];
      assert (a + b)[1..] == a[1..] + b;
      CollectAppend(a[1..], b);
    } else {
      assert a + b == b;
    }
  }

  /** A walk in which no condition holds emits nothing. */
  lemma {:induction false} CollectNothing(cs: seq<Candidate>)
    requires forall i :: 0 <= i < |cs| ==> cs[i].value.None?
    ensures Collect(cs) == []
  {
    if |cs| > 0 {
      CollectNothing(cs[1..]);
    }
  }

  predicate NoDuplicates<T(==)>(s: seq<T>) {
    forall i, j :: 0 <= i < j < |s| ==> s[i] != s[j]
  }

  /** `a` is `b` with some elements left out (order kept). */
  predicate IsSubsequence<T(==)>(a: seq<T>, b: seq<T>)
    decreases |b|
  {
    if |a| == 0 then true
    else if |b| == 0 then false
    else if a[0] == b[0] then IsSubsequence(a[1..], b[1..])
    else IsSubsequence(a, b[1..])
  }

  lemma {:induction false} SubsequenceDropFirst<T>(a: seq<T>, b: seq<T>)
    requires |a| > 0 && IsSubsequence(a, b)
    ensures IsSubsequence(a[1..], b)
    decreases |b|, 0
  {
    if a[0] != b[0] {
      SubsequenceDropFirst(a, b[1..]);
      SubsequenceExtend(a[1..], b[1..], b[0]);
      assert [b[0]] + b[1..] == b;
    } else if |a| > 1 {
      SubsequenceExtend(a[1..], b[1..], b[0]);
      assert [b[0]] + b[1..] == b;
    }
  }

  lemma {:induction false} SubsequenceExtend<T>(a: seq<T>, b: seq<T>, x: T)
    requires IsSubsequence(a, b)
    ensures IsSubsequence(a, [x] + b)
    decreases |b|, 1
  {
    var xb := [x] + b;
    assert xb[1..] == b;
    if |a| > 0 && a[0] == x {
      SubsequenceDropFirst(a, b);
    }
  }

  lemma {:induction false} SubsequenceElements<T>(a: seq<T>, b: seq<T>)
    requires IsSubsequence(a, b)
    ensures forall x :: x in a ==> x in b
    decreases |b|
  {
    if |a| > 0 {
      if a[0] == b[0] {
        SubsequenceElements(a[1..], b[1..]);
        assert a == [a[0]] + a[1..];
      } else {
        SubsequenceElements(a, b[1..]);
      }
    }
  }

  /** A subsequence of a list without repetitions has none either. */
  lemma {:induction false} SubsequenceNoDuplicates<T>(a: seq<T>, b: seq<T>)
    requires IsSubsequence(a, b) && NoDuplicates(b)
    ensures NoDuplicates(a)
    decreases |b|
  {
    if |a| > 0 {
      if a[0] == b[0] {
        SubsequenceNoDuplicates(a[1..], b[1..]);
        SubsequenceElements(a[1..], b[1..]);
        assert a[0] !in b[1..];
        forall i, j | 0 <= i < j < |a| ensures a[i] != a[j] {
          if i == 0 {
            assert a[j] == a[1..][j - 1];
          } else {
            assert a[i] == a[1..][i - 1] && a[j] == a[1..][j - 1];
          }
        }
      } else {
        SubsequenceNoDuplicates(a, b[1..]);
      }
    }
  }

  /** The names a walk emits keep the walk's order. */
  lemma {:induction false} CollectNamesInOrder(cs: seq<Candidate>)
    ensures IsSubsequence(Names(Collect(cs)), CandidateNames(cs))
  {
    if |cs| > 0 {
      CollectNamesInOrder(cs[1..]);
      assert CandidateNames(cs[1..]) == CandidateNames(cs)[1..];
      match cs[0].value
      case Some(v) =>
        assert Names(Collect(cs))[1..] == Names(Collect(cs[1..]));
      case None =>
        assert [cs[0].name] + CandidateNames(cs)[1..] == CandidateNames(cs);
        SubsequenceExtend(Names(Collect(cs[1..])), CandidateNames(cs[1..]), cs[0].name);
    }
  }

  /** A name the walk never considers is absent from the query. */
  lemma {:induction false} LookupNotCandidate(cs: seq<Candidate>, name: string)
    requires name !in CandidateNames(cs)
    ensures Lookup(Collect(cs), name) == None
  {
    CollectNamesInOrder(cs);
    SubsequenceElements(Names(Collect(cs)), CandidateNames(cs));
    LookupFindsNames(Collect(cs), name);
  }

  /** When the walk considers each name once, looking a name up in the query
      returns exactly that candidate's value: the parameter is present iff the
      builder's condition held, and then carries the builder's value. */
  lemma {:induction false} LookupCollect(cs: seq<Candidate>, i: nat)
    requires i < |cs|
    requires NoDuplicates(CandidateNames(cs))
    ensures Lookup(Collect(cs), cs[i].name) == cs[i].value
    decreases i
  {
    var rest := cs[1..];
    assert CandidateNames(rest) == CandidateNames(cs)[1..];
    if i == 0 {
      if cs[0].value.None? {
        assert CandidateNames(cs)[0] == cs[0].name;
        assert cs[0].name !in CandidateNames(rest);
        LookupNotCandidate(rest, cs[0].name);
      }
    } else {
      assert CandidateNames(cs)[0] != CandidateNames(cs)[i];
      LookupCollect(rest, i - 1);
    }
  }

  /** The `location` value `"{lat},{lng}"`; `formatCoord` is the culture-
      invariant rendering of a double, which is not part of this model. */
  function FormatLocation(latitude: real, longitude: real, formatCoord: real -> string): string {
    formatCoord(latitude) + "," + formatCoord(longitude)
  }

  /** As long as the coordinate rendering never produces a comma (which the
      invariant culture guarantees), the receiver can split the `location`
      value back into the two rendered coordinates. */
  lemma FormatLocationSplits(latitude: real, longitude: real, formatCoord: real -> string)
    requires ',' !in formatCoord(latitude) && ',' !in formatCoord(longitude)
    ensures Split(FormatLocation(latitude, longitude, formatCoord), ',')
         == [formatCoord(latitude), formatCoord(longitude)]
  {
    var parts := [formatCoord(latitude), formatCoord(longitude)];
    assert Join(parts[1..], ',') == formatCoord(longitude);
    assert Join(parts, ',') == FormatLocation(latitude, longitude, formatCoord);
    SplitJoinRoundTrip(parts, ',');
  }
}

=== FILE: response_bodies.dfy ===
/** Response bodies of the search and details endpoints
    (`PlacesNearbySearchResponseBody`, `PlacesTextSearchResponseBody`,
    `PlacesDetailsResponseBody`): a page of places, the token of the next page
    and the API's status code. */
module ResponseBodies {
  import opened Basics
  import opened Strings
  import opened Models
  import Details

  /** The keys of a search response object, None when missing. `results`
      holds the array's items, each possibly null. */
  datatype SearchJson = SearchJson(
    nextPageToken: Option<string>,
    results: Option<seq<Option<Details.DetailsJson>>>,
    status: Option<string>)

  /** A parsed page of search results. */
  datatype SearchBody = SearchBody(
    nextPageToken: Option<string>,
    results: seq<Option<Details.PlacesDetails>>,
    status: ResponseStatusCode)

  /** The keys of a details response object. */
  datatype DetailsBodyJson = DetailsBodyJson(result: Option<Details.DetailsJson>, status: Option<string>)

  /** A parsed details response: the place (null when `result` is missing) and
      the status. */
  datatype DetailsBody = DetailsBody(result: Option<Details.PlacesDetails>, status: ResponseStatusCode)

  /** `GetEnum<PlacesResponseStatusCode>("status")`. A missing key is assumed
      to give the enumeration's zero value, `Ok`; the conversion of a present
      value is the library's. */
  function ParseStatus(value: Option<string>, parseEnum: string -> ResponseStatusCode): (s: ResponseStatusCode)
    ensures value.None? ==> s.Ok?
    ensures value.Some? ==> s == parseEnum(value.value)
  {
    if value.Some? then parseEnum(value.value) else Ok
  }

  /** `GetArrayItems("results", PlacesDetails.Parse)`, taken to hand every
      item, nulls included, to the parser at its own position: the page keeps
      the array's length and order and a null item stays null. */
  function ParseResults(items: seq<Option<Details.DetailsJson>>, coerce: Details.Coercions)
    : (rs: seq<Option<Details.PlacesDetails>>)
    ensures |rs| == |items|
    ensures forall i :: 0 <= i < |items| ==> rs[i] == Details.Parse(items[i], coerce)
  {
    if |items| == 0 then []
    else [Details.Parse(items[0], coerce)] + ParseResults(items[1..], coerce)
  }

  /** Parsing a concatenated array concatenates the pages. */
  lemma {:induction false} ParseResultsAppend(a: seq<Option<Details.DetailsJson>>,
                                              b: seq<Option<Details.DetailsJson>>,
                                              coerce: Details.Coercions)
    ensures ParseResults(a + b, coerce) == ParseResults(a, coerce) + ParseResults(b, coerce)
  {
    if |a| == 0 {
      assert a + b == b;
    } else {
      assert (a + b)[1..] == a[1..] + b;
      ParseResultsAppend(a[1..], b, coerce);
    }
  }

  /** A search response object with none of its keys. */
  function EmptySearchJson(): SearchJson {
    SearchJson(None, None, None)
  }

  /** The body built from one response object. */
  function FromJson(j: SearchJson, coerce: Details.Coercions): (b: SearchBody)
    ensures b.nextPageToken == j.nextPageToken
    ensures j.results.None? ==> b.results == []
    ensures j.results.Some? ==> |b.results| == |j.results.value|
    ensures b.status == ParseStatus(j.status, coerce.status)
  {
    SearchBody(j.nextPageToken, ParseResults(j.results.GetOr([]), coerce), ParseStatus(j.status, coerce.status))
  }

  /** `PlacesNearbySearchResponseBody.Parse`: there is no null check, so a null
      object still yields a body, the one of an object without keys: no next
      page, no results, status `Ok`. */
  function ParseNearby(obj: Option<SearchJson>, coerce: Details.Coercions): (b: SearchBody)
    ensures obj.None? ==> b.nextPageToken.None? && b.results == [] && b.status.Ok?
    ensures obj.Some? ==> b.nextPageToken == obj.value.nextPageToken
  {
    FromJson(obj.GetOr(EmptySearchJson()), coerce)
  }

  /** `PlacesTextSearchResponseBody.Parse`: null gives null; an object gives
      the same body the nearby parser builds. */
  function ParseText(obj: Option<SearchJson>, coerce: Details.Coercions): (b: Option<SearchBody>)
    ensures b.Some? <==> obj.Some?
    ensures b.Some? ==> b.value == ParseNearby(obj, coerce)
  {
    if obj.None? then None else Some(FromJson(obj.value, coerce))
  }

  /** `HasNextPageToken` of either search body. */
  predicate HasNextPageToken(b: SearchBody) {
    !IsBlank(b.nextPageToken)
  }

  /** A next page is reported iff the object's `next_page_token` is not blank;
      a missing key or a null object never reports one. */
  lemma NextPageTokenFlag(obj: Option<SearchJson>, coerce: Details.Coercions)
    ensures obj.Some? ==>
      (HasNextPageToken(ParseNearby(obj, coerce)) <==> !IsBlank(obj.value.nextPageToken))
    ensures obj.None? || obj.value.nextPageToken.None? ==> !HasNextPageToken(ParseNearby(obj, coerce))
    ensures obj.Some? ==>
      (HasNextPageToken(ParseText(obj, coerce).value) <==> !IsBlank(obj.value.nextPageToken))
  {
  }

  /** Result `i` of the page is item `i` of the array, parsed; in particular a
      place is reported at `i` iff the array holds an object there. */
  lemma ResultsFollowArray(j: SearchJson, coerce: Details.Coercions, i: int)
    requires j.results.Some? && 0 <= i < |j.results.value|
    ensures ParseNearby(Some(j), coerce).results[i] == Details.Parse(j.results.value[i], coerce)
    ensures ParseNearby(Some(j), coerce).results[i].Some? <==> j.results.value[i].Some?
  {
  }

  /** The status and the results are read independently: replacing the array
      changes no status, replacing the status changes no result. So a status
      other than `Ok` can come with places, and `Ok` with none. */
  lemma StatusIndependentOfResults(j: SearchJson, items: seq<Option<Details.DetailsJson>>,
                                   status: Option<string>, coerce: Details.Coercions)
    ensures ParseNearby(Some(j.(results := Some(items))), coerce).status == ParseNearby(Some(j), coerce).status
    ensures ParseNearby(Some(j.(status := status)), coerce).results == ParseNearby(Some(j), coerce).results
  {
  }

  /** A concrete page whose status is `ZERO_RESULTS` but which lists a place. */
  lemma NonOkStatusWithResults(coerce: Details.Coercions, token: string)
    requires coerce.status(token) == ZeroResults
    ensures var b := ParseNearby(Some(SearchJson(None, Some([Some(Details.EmptyJson())]), Some(token))), coerce);
      !b.status.Ok? && |b.results| == 1 && b.results[0].Some?
  {
  }

  /** `PlacesDetailsResponseBody.Parse`: null gives null; otherwise the place
      under `result` (null when missing) and the status. */
  function ParseDetailsBody(obj: Option<DetailsBodyJson>, coerce: Details.Coercions): (b: Option<DetailsBody>)
    ensures b.Some? <==> obj.Some?
    ensures b.Some? ==> (b.value.result.Some? <==> obj.value.result.Some?)
    ensures b.Some? && obj.value.status.None? ==> b.value.status.Ok?
  {
    match obj
    case None => None
    case Some(j) => Some(DetailsBody(Details.Parse(j.result, coerce), ParseStatus(j.status, coerce.status)))
  }

  /** The place of a details body is the `result` object run through the
      place parser, and its status depends on `status` alone. */
  lemma DetailsBodyFollowsResult(j: DetailsBodyJson, status: Option<string>, coerce: Details.Coercions)
    ensures ParseDetailsBody(Some(j), coerce).value.result == Details.Parse(j.result, coerce)
    ensures ParseDetailsBody(Some(j.(status := status)), coerce).value.result
         == ParseDetailsBody(Some(j), coerce).value.result
    ensures ParseDetailsBody(Some(j), coerce).value.status == ParseStatus(j.status, coerce.status)
  {
  }
}

=== FILE: responses.dfy ===
/** Interpretation of an HTTP response from the Places API (`PlacesResponse`
    and its typed subclasses): any status other than 200 OK becomes a
    `PlacesHttp` error built from the body's `error` object; a 200 OK response
    gets a typed body and its `error` object is never read. */
module Responses {
  import opened Basics
  import Details
  import ResponseBodies

  const StatusOk: int := 200

  /** The body's `error` object: `code` and `message`, None when missing. */
  datatype ErrorJson = ErrorJson(code: Option<int>, message: Option<string>)

  /** A raw response: its HTTP status code, the `error` object of its JSON body
      (None when missing) and the rest of the body, already parsed as `J`. */
  datatype RawResponse<J> = RawResponse(statusCode: int, error: Option<ErrorJson>, body: J)

  /** `error.GetInt32("code")`: 0 when the object or the key is missing. */
  function ErrorCode(error: Option<ErrorJson>): int {
    if error.Some? && error.value.code.Some? then error.value.code.value else 0
  }

  /** `error.GetString("message")`: null when the object or the key is missing. */
  function ErrorMessage(error: Option<ErrorJson>): Option<string> {
    if error.Some? then error.value.message else None
  }

  /** The base constructor's check: 200 OK passes; every other status raises
      the Places HTTP exception carrying that status, the error code and the
      error message. */
  function CheckStatus<J>(response: RawResponse<J>): (r: Result<(), Error>)
    ensures r.Success? <==> response.statusCode == StatusOk
    ensures r.Failure? ==> r.error.PlacesHttp?
    ensures r.Failure? ==> r.error.statusCode == response.statusCode
    ensures r.Failure? && response.error.Some? && response.error.value.code.Some? ==>
      r.error.code == response.error.value.code.value
    ensures r.Failure? && response.error.Some? ==> r.error.message == response.error.value.message
    ensures r.Failure? && response.error.None? ==> r.error.code == 0 && r.error.message.None?
    ensures r.Failure? && response.error.Some? && response.error.value.code.None? ==> r.error.code == 0
  {
    if response.statusCode == StatusOk then Success(())
    else Failure(PlacesHttp(response.statusCode, ErrorCode(response.error), ErrorMessage(response.error)))
  }

  /** A typed response: the base check first, and the body parsed only when
      it passed. */
  function Typed<J, B>(response: RawResponse<J>, parse: J -> B): (r: Result<B, Error>)
    ensures r.Success? <==> response.statusCode == StatusOk
    ensures r.Success? ==> r.value == parse(response.body)
    ensures r.Failure? ==> CheckStatus(response) == Failure(r.error)
  {
    match CheckStatus(response)
    case Success(_) => Success(parse(response.body))
    case Failure(e) => Failure(e)
  }

  /** `PlacesNearbySearchResponse`. */
  function NearbySearchResponse(response: RawResponse<Option<ResponseBodies.SearchJson>>, coerce: Details.Coercions)
    : (r: Result<ResponseBodies.SearchBody, Error>)
    ensures r.Success? <==> response.statusCode == StatusOk
    ensures r.Success? ==> r.value == ResponseBodies.ParseNearby(response.body, coerce)
  {
    Typed(response, (j: Option<ResponseBodies.SearchJson>) => ResponseBodies.ParseNearby(j, coerce))
  }

  /** `PlacesTextSearchResponse`. */
  function TextSearchResponse(response: RawResponse<Option<ResponseBodies.SearchJson>>, coerce: Details.Coercions)
    : (r: Result<Option<ResponseBodies.SearchBody>, Error>)
    ensures r.Success? <==> response.statusCode == StatusOk
    ensures r.Success? ==> r.value == ResponseBodies.ParseText(response.body, coerce)
  {
    Typed(response, (j: Option<ResponseBodies.SearchJson>) => ResponseBodies.ParseText(j, coerce))
  }

  /** `PlacesDetailsResponse`. */
  function DetailsResponse(response: RawResponse<Option<ResponseBodies.DetailsBodyJson>>, coerce: Details.Coercions)
    : (r: Result<Option<ResponseBodies.DetailsBody>, Error>)
    ensures r.Success? <==> response.statusCode == StatusOk
    ensures r.Success? ==> r.value == ResponseBodies.ParseDetailsBody(response.body, coerce)
  {
    Typed(response, (j: Option<ResponseBodies.DetailsBodyJson>) => ResponseBodies.ParseDetailsBody(j, coerce))
  }

  /** On 200 OK the `error` object is never consulted: any two responses that
      differ only in it give the same typed result. */
  lemma OkIgnoresErrorObject<J, B>(response: RawResponse<J>, error: Option<ErrorJson>, parse: J -> B)
    requires response.statusCode == StatusOk
    ensures Typed(response.(error := error), parse) == Typed(response, parse)
    ensures Typed(response, parse) == Success(parse(response.body))
  {
  }

  /** Any other status never yields a body, whatever the body holds: the
      outcome is the same error for every body and every parser. */
  lemma NonOkNeverParsesBody<J, B>(response: RawResponse<J>, body: J, parse: J -> B, parse': J -> B)
    requires response.statusCode != StatusOk
    ensures Typed(response.(body := body), parse') == Typed(response, parse)
    ensures Typed(response, parse)
         == Failure(PlacesHttp(response.statusCode, ErrorCode(response.error), ErrorMessage(response.error)))
  {
  }

  /** The error a non-OK response raises determines the response's status code,
      error code and message: two non-OK responses raising the same error agree
      on all three. */
  lemma ErrorDeterminesResponse<J>(a: RawResponse<J>, b: RawResponse<J>)
    requires a.statusCode != StatusOk && b.statusCode != StatusOk
    requires CheckStatus(a) == CheckStatus(b)
    ensures a.statusCode == b.statusCode
    ensures ErrorCode(a.error) == ErrorCode(b.error)
    ensures ErrorMessage(a.error) == ErrorMessage(b.error)
  {
  }
}

=== FILE: strings.dfy ===
/** String helpers the options builders rely on: .NET's notion of a blank
    string, decimal rendering of integers for query values, and joining a list
    of field names with a separator. Each rendering comes with the inverse a
    receiver would apply, and a lemma that the two round-trip. */
module Strings {
  import opened Basics

  /** `char.IsWhiteSpace`: the Unicode White_Space characters, i.e. the
      separators (space, line and paragraph separators) plus the control
      characters U+0009..U+000D and U+0085. */
  predicate IsWhiteSpace(c: char) {
    || ('\t' <= c <= '\r')
    || c == ' '
    || c == '\U{0085}'
    || c == '\U{00A0}'
    || c == '\U{1680}'
    || ('\U{2000}' <= c <= '\U{200A}')
    || c == '\U{2028}'
    || c == '\U{2029}'
    || c == '\U{202F}'
    || c == '\U{205F}'
    || c == '\U{3000}'
  }

  /** `string.IsNullOrWhiteSpace`: null, empty, or only white space. */
  predicate IsBlank(s: Option<string>) {
    match s
    case None => true
    case Some(t) => forall i :: 0 <= i < |t| ==> IsWhiteSpace(t[i])
  }

  /** The string itself when it is not blank, and nothing otherwise: the value
      a builder emits for an optional string property. */
  function NonBlank(s: Option<string>): (r: Option<string>)
    ensures r.Some? <==> !IsBlank(s)
    ensures r.Some? ==> s == r
  {
    if IsBlank(s) then None else s
  }

  lemma NonBlankHasVisibleChar(s: Option<string>)
    requires !IsBlank(s)
    ensures s.Some? && |s.value| > 0
    ensures exists i :: 0 <= i < |s.value| && !IsWhiteSpace(s.value[i])
  {
  }

  // ---------------------------------------------------------------------
  // Decimal rendering of integers (`int.ToString()` under the invariant
  // culture) and its inverse.

  predicate IsDigit(c: char) {
    '0' <= c <= '9'
  }

  function DigitChar(d: nat): (c: char)
    requires d < 10
    ensures IsDigit(c)
  {
    (d + '0' as int) as char
  }

  function DigitValue(c: char): (d: nat)
    requires IsDigit(c)
    ensures d < 10
  {
    c as int - '0' as int
  }

  /** Decimal digits of `n`, most significant first, without leading zeros. */
  function NatToString(n: nat): (s: string)
    ensures |s| > 0
    ensures forall i :: 0 <= i < |s| ==> IsDigit(s[i])
    ensures s[0] == '0' ==> n == 0 && |s| == 1
    decreases n
  {
    if n < 10 then [DigitChar(n)] else NatToString(n / 10) + [DigitChar(n % 10)]
  }

  /** `i.ToString(CultureInfo.InvariantCulture)`: a leading '-' for negative values. */
  function IntToString(i: int): (s: string)
    ensures |s| > 0
    ensures (s[0] == '-') <==> i < 0
  {
    if i < 0 then "-" + NatToString(-i) else NatToString(i)
  }

  predicate AllDigits(s: string) {
    forall i :: 0 <= i < |s| ==> IsDigit(s[i])
  }

  /** Value of a digit string read most significant first. */
  function DigitsValue(s: string): nat
    requires AllDigits(s)
    decreases |s|
  {
    if |s| == 0 then 0 else 10 * DigitsValue(s[..|s| - 1]) + DigitValue(s[|s| - 1])
  }

  /** Reads an optionally negative decimal integer; None when `s` is not one. */
  function ParseInt(s: string): Option<int> {
    if |s| > 0 && s[0] == '-' then
      if |s| > 1 && AllDigits(s[1..]) then Some(-(DigitsValue(s[1..]) as int)) else None
    else if |s| > 0 && AllDigits(s) then Some(DigitsValue(s) as int)
    else None
  }

  lemma {:induction false} NatToStringRoundTrip(n: nat)
    ensures AllDigits(NatToString(n))
    ensures DigitsValue(NatToString(n)) == n
    decreases n
  {
    var s := NatToString(n);
    if n < 10 {
      assert s[..|s| - 1] == [];
    } else {
      NatToStringRoundTrip(n / 10);
      var p := NatToString(n / 10);
      assert s == p + [DigitChar(n % 10)];
      assert s[..|s| - 1] == p;
    }
  }

  /** Every rendered integer reads back as itself. */
  lemma IntToStringRoundTrip(i: int)
    ensures ParseInt(IntToString(i)) == Some(i)
  {
    if i < 0 {
      NatToStringRoundTrip(-i);
      assert IntToString(i)[1..] == NatToString(-i);
    } else {
      NatToStringRoundTrip(i);
    }
  }

  /** Rendering is injective: distinct integers give distinct query values. */
  lemma IntToStringInjective(i: int, j: int)
    requires IntToString(i) == IntToString(j)
    ensures i == j
  {
    IntToStringRoundTrip(i);
    IntToStringRoundTrip(j);
  }

  // ---------------------------------------------------------------------
  // `string.Join(",", list)` and its inverse.

  /** The items of `xs` with `sep` between consecutive items. */
  function Join(xs: seq<string>, sep: char): string
    decreases |xs|
  {
    if |xs| == 0 then ""
    else if |xs| == 1 then xs[0]
    else xs[0] + [sep] + Join(xs[1..], sep)
  }

  /** Index of the first occurrence of `c` in `s`. */
  function FirstIndex(s: string, c: char): (r: nat)
    requires c in s
    ensures r < |s| && s[r] == c
    ensures c !in s[..r]
  {
    if s[0] == c then 0
    else
      assert c in s[1..] by {
        var k :| 0 <= k < |s| && s[k] == c;
        assert s[1..][k - 1] == c;
      }
      var r := 1 + FirstIndex(s[1..], c);
      assert s[..r] == [s[0]] + s[1..][..r - 1];
      r
  }

  /** The pieces of `s` between occurrences of `sep` (`string.Split`). */
  function Split(s: string, sep: char): (parts: seq<string>)
    ensures |parts| > 0
    decreases |s|
  {
    if sep !in s then [s]
    else
      var i := FirstIndex(s, sep);
      [s[..i]] + Split(s[i + 1..], sep)
  }

  lemma FirstIndexAfterItem(x: string, y: string, sep: char)
    requires sep !in x
    ensures sep in x + [sep] + y
    ensures FirstIndex(x + [sep] + y, sep) == |x|
  {
    var s := x + [sep] + y;
    assert s[|x|] == sep;
  }

  /** Joining a non-empty list whose items do not contain the separator can be
      undone by splitting: the receiver recovers exactly the list sent. */
  lemma {:induction false} SplitJoinRoundTrip(xs: seq<string>, sep: char)
    requires |xs| > 0
    requires forall i :: 0 <= i < |xs| ==> sep !in xs[i]
    ensures Split(Join(xs, sep), sep) == xs
    decreases |xs|
  {
    if |xs| > 1 {
      var rest := Join(xs[1..], sep);
      var s := xs[0] + [sep] + rest;
      assert Join(xs, sep) == s;
      FirstIndexAfterItem(xs[0], rest, sep);
      assert s[..|xs[0]|] == xs[0];
      assert s[|xs[0]| + 1..] == rest;
      assert Split(s, sep) == [xs[0]] + Split(rest, sep);
      assert forall i :: 0 <= i < |xs[1..]| ==> sep !in xs[1..][i];
      SplitJoinRoundTrip(xs[1..], sep);
      assert xs == [xs[0]] + xs[1..];
    }
  }
}

=== FILE: text_search.dfy ===
/** Options for the Text Search endpoint (`PlacesTextSearchOptions`) and the
    request they build. */
module TextSearch {
  import opened Basics
  import opened Strings
  import opened QueryStrings
  import opened Models

  const Url: string := "https://maps.googleapis.com/maps/api/place/textsearch/json"

  /** Every parameter the builder may emit, in the order it considers them. */
  const ParameterOrder: seq<string> :=
    ["query", "location", "radius", "language", "minprice", "maxprice", "type", "pagetoken"]

  /** The properties of a text search; the location, the radius and the price
      bounds are nullable. `placeType` is the `Type` property. */
  datatype Options = Options(
    query: Option<string>,
    location: Option<Point>,
    radius: Option<int>,
    language: Option<string>,
    minPrice: Option<PriceLevel>,
    maxPrice: Option<PriceLevel>,
    placeType: Option<string>,
    pageToken: Option<string>)

  /** The parameterless constructor: nothing set. */
  function Default(): Options {
    Options(None, None, None, None, None, None, None, None)
  }

  /** The constructor taking only the search text. */
  function WithQuery(query: Option<string>): Options {
    Default().(query := query)
  }

  /** The constructor taking search text, latitude, longitude and radius. */
  function WithCoordinates(query: Option<string>, latitude: real, longitude: real, radius: int): Options {
    Default().(query := query, location := Some(Point(latitude, longitude)), radius := Some(radius))
  }

  /** The constructor taking search text, a point and a radius. The point is
      stored as given, without a null check. */
  function WithPoint(query: Option<string>, location: Option<Point>, radius: int): Options {
    Default().(query := query, location := location, radius := Some(radius))
  }

  /** `minprice`/`maxprice` value: `(int) level - 1` whenever the bound is set. */
  function PriceParameter(p: Option<PriceLevel>): Option<string> {
    if p.Some? then Some(IntToString(Ord(p.value) - 1)) else None
  }

  /** `Radius > 0` on a nullable int: false for null. */
  function RadiusParameter(radius: Option<int>): Option<string> {
    if radius.Some? && radius.value > 0 then Some(IntToString(radius.value)) else None
  }

  function Candidates(o: Options, formatCoord: real -> string): seq<Candidate>
    requires o.location.Some?
  {
    [ Candidate(ParameterOrder[0], NonBlank(o.query)),
      Candidate(ParameterOrder[1], Some(FormatLocation(o.location.value.latitude, o.location.value.longitude, formatCoord))),
      Candidate(ParameterOrder[2], RadiusParameter(o.radius)),
      Candidate(ParameterOrder[3], NonBlank(o.language)),
      Candidate(ParameterOrder[4], PriceParameter(o.minPrice)),
      Candidate(ParameterOrder[5], PriceParameter(o.maxPrice)),
      Candidate(ParameterOrder[6], NonBlank(o.placeType)),
      Candidate(ParameterOrder[7], NonBlank(o.pageToken)) ]
  }

  lemma ParameterOrderDistinct()
    ensures NoDuplicates(ParameterOrder)
  {
  }

  lemma CandidateNamesAreParameterOrder(o: Options, formatCoord: real -> string)
    requires o.location.Some?
    ensures CandidateNames(Candidates(o, formatCoord)) == ParameterOrder
    ensures NoDuplicates(ParameterOrder)
  {
    ParameterOrderDistinct();
  }

  /** `GetRequest`. A null location fails naming `Location`, a (0,0) location
      fails naming `Latitude`, and nothing else fails. On success the query
      starts with the search text when it is not blank and with the location
      otherwise; its names follow `ParameterOrder` with none repeated, so
      neither `rankby` nor `fields` is ever sent. */
  function GetRequest(o: Options, formatCoord: real -> string): (r: Result<HttpRequest, Error>)
    ensures r.Failure? <==>
      o.location.None? || IsZeroLocation(o.location.value.latitude, o.location.value.longitude)
    ensures o.location.None? ==> r == Failure(PropertyNotSet("Location"))
    ensures o.location.Some? && IsZeroLocation(o.location.value.latitude, o.location.value.longitude) ==>
      r == Failure(PropertyNotSet("Latitude"))
    ensures r.Success? ==> r.value.url == Url
    ensures r.Success? ==> |r.value.query| > 0
    ensures r.Success? && !IsBlank(o.query) ==> r.value.query[0] == ("query", o.query.value)
    ensures r.Success? && IsBlank(o.query) ==>
      r.value.query[0]
      == ("location", FormatLocation(o.location.value.latitude, o.location.value.longitude, formatCoord))
    ensures r.Success? ==> IsSubsequence(Names(r.value.query), ParameterOrder)
    ensures r.Success? ==> NoDuplicates(Names(r.value.query))
    ensures r.Success? ==> forall n :: n !in ParameterOrder ==> Lookup(r.value.query, n) == None
  {
    if o.location.None? then Failure(PropertyNotSet("Location"))
    else if IsZeroLocation(o.location.value.latitude, o.location.value.longitude) then
      Failure(PropertyNotSet("Latitude"))
    else
      var cs := Candidates(o, formatCoord);
      CandidateNamesAreParameterOrder(o, formatCoord);
      CollectNamesInOrder(cs);
      SubsequenceNoDuplicates(Names(Collect(cs)), ParameterOrder);
      forall n | n !in ParameterOrder ensures Lookup(Collect(cs), n) == None {
        LookupNotCandidate(cs, n);
      }
      assert cs == [cs[0]] + [cs[1]] + cs[2..];
      CollectAppend([cs[0]] + [cs[1]], cs[2..]);
      CollectAppend([cs[0]], [cs[1]]);
      CollectOne(cs[0]);
      CollectOne(cs[1]);
      Success(HttpRequest(Url, Collect(cs)))
  }

  /** No ranking and no field list is ever sent. */
  lemma NoRankByOrFields(o: Options, formatCoord: real -> string)
    requires GetRequest(o, formatCoord).Success?
    ensures Lookup(GetRequest(o, formatCoord).value.query, "rankby") == None
    ensures Lookup(GetRequest(o, formatCoord).value.query, "fields") == None
  {
  }

  /** `query`, `language`, `type` and `pagetoken` are each sent iff the
      property is not blank, carrying its value; `location` always, rendered. */
  lemma TextParameters(o: Options, formatCoord: real -> string)
    requires GetRequest(o, formatCoord).Success?
    ensures Lookup(GetRequest(o, formatCoord).value.query, "query") == NonBlank(o.query)
    ensures Lookup(GetRequest(o, formatCoord).value.query, "location")
         == Some(FormatLocation(o.location.value.latitude, o.location.value.longitude, formatCoord))
    ensures Lookup(GetRequest(o, formatCoord).value.query, "language") == NonBlank(o.language)
    ensures Lookup(GetRequest(o, formatCoord).value.query, "type") == NonBlank(o.placeType)
    ensures Lookup(GetRequest(o, formatCoord).value.query, "pagetoken") == NonBlank(o.pageToken)
  {
    var cs := Candidates(o, formatCoord);
    CandidateNamesAreParameterOrder(o, formatCoord);
    assert Lookup(Collect(cs), "query") == cs[0].value by { LookupCollect(cs, 0); }
    assert Lookup(Collect(cs), "location") == cs[1].value by { LookupCollect(cs, 1); }
    assert Lookup(Collect(cs), "language") == cs[3].value by { LookupCollect(cs, 3); }
    assert Lookup(Collect(cs), "type") == cs[6].value by { LookupCollect(cs, 6); }
    assert Lookup(Collect(cs), "pagetoken") == cs[7].value by { LookupCollect(cs, 7); }
  }

  /** `radius` is sent iff the radius is set and positive; a price bound iff it
      is set (an explicitly unspecified level included), as `(int) level - 1`. */
  lemma NumericParameters(o: Options, formatCoord: real -> string)
    requires GetRequest(o, formatCoord).Success?
    ensures Lookup(GetRequest(o, formatCoord).value.query, "radius")
         == (if o.radius.Some? && o.radius.value > 0 then Some(IntToString(o.radius.value)) else None)
    ensures Lookup(GetRequest(o, formatCoord).value.query, "minprice")
         == (if o.minPrice.Some? then Some(IntToString(Ord(o.minPrice.value) - 1)) else None)
    ensures Lookup(GetRequest(o, formatCoord).value.query, "maxprice")
         == (if o.maxPrice.Some? then Some(IntToString(Ord(o.maxPrice.value) - 1)) else None)
  {
    var cs := Candidates(o, formatCoord);
    CandidateNamesAreParameterOrder(o, formatCoord);
    assert Lookup(Collect(cs), "radius") == cs[2].value by { LookupCollect(cs, 2); }
    assert Lookup(Collect(cs), "minprice") == cs[4].value by { LookupCollect(cs, 4); }
    assert Lookup(Collect(cs), "maxprice") == cs[5].value by { LookupCollect(cs, 5); }
  }

  /** A set price bound reaches the API as a number that decodes back to the
      same level when the level is specified, and to no level (it is -1) when
      the bound was set to the unspecified level. */
  lemma PriceBoundsRecoverable(o: Options, formatCoord: real -> string)
    requires GetRequest(o, formatCoord).Success?
    ensures o.minPrice.Some? ==>
      var v := Lookup(GetRequest(o, formatCoord).value.query, "minprice");
      && v.Some? && ParseInt(v.value).Some?
      && PriceLevelOfWire(ParseInt(v.value).value)
         == (if o.minPrice.value.Unspecified? then None else o.minPrice)
    ensures o.maxPrice.Some? ==>
      var v := Lookup(GetRequest(o, formatCoord).value.query, "maxprice");
      && v.Some? && ParseInt(v.value).Some?
      && PriceLevelOfWire(ParseInt(v.value).value)
         == (if o.maxPrice.value.Unspecified? then None else o.maxPrice)
  {
    NumericParameters(o, formatCoord);
    if o.minPrice.Some? {
      IntToStringRoundTrip(Ord(o.minPrice.value) - 1);
      PriceLevelWireRoundTrip(o.minPrice.value);
    }
    if o.maxPrice.Some? {
      IntToStringRoundTrip(Ord(o.maxPrice.value) - 1);
      PriceLevelWireRoundTrip(o.maxPrice.value);
    }
  }

  /** Options built from search text alone never produce a request: the
      location they leave null is required. */
  lemma WithQueryFails(query: Option<string>, formatCoord: real -> string)
    ensures GetRequest(WithQuery(query), formatCoord) == Failure(PropertyNotSet("Location"))
  {
  }

  /** The point constructor stores a null point, so the request then fails. */
  lemma WithPointNullFails(query: Option<string>, radius: int, formatCoord: real -> string)
    ensures GetRequest(WithPoint(query, None, radius), formatCoord) == Failure(PropertyNotSet("Location"))
  {
  }

  /** The coordinate constructor yields a request exactly when the point is not
      (0,0); the request then holds exactly the non-blank search text, the
      location and the radius when positive. */
  lemma WithCoordinatesRequest(query: Option<string>, latitude: real, longitude: real, radius: int,
                               formatCoord: real -> string)
    ensures GetRequest(WithCoordinates(query, latitude, longitude, radius), formatCoord).Success?
        <==> !IsZeroLocation(latitude, longitude)
    ensures GetRequest(WithCoordinates(query, latitude, longitude, radius), formatCoord).Success? ==>
      GetRequest(WithCoordinates(query, latitude, longitude, radius), formatCoord).value.query
      == (if IsBlank(query) then [] else [("query", query.value)])
       + [("location", FormatLocation(latitude, longitude, formatCoord))]
       + (if radius > 0 then [("radius", IntToString(radius))] else [])
  {
    var o := WithCoordinates(query, latitude, longitude, radius);
    if !IsZeroLocation(latitude, longitude) {
      var cs := Candidates(o, formatCoord);
      assert cs == [cs[0]] + [cs[1]] + [cs[2]] + cs[3..];
      CollectAppend([cs[0]] + [cs[1]] + [cs[2]], cs[3..]);
      CollectAppend([cs[0]] + [cs[1]], [cs[2]]);
      CollectAppend([cs[0]], [cs[1]]);
      CollectOne(cs[0]);
      CollectOne(cs[1]);
      CollectOne(cs[2]);
      CollectNothing(cs[3..]);
    }
  }
}
